=== FILE: README.md ===
# Intelligent query–retrieval service: a Dafny model

This project models the retrieval-augmented question answering service
that answers questions about an insurance-policy PDF. A request names
either a document URL or nothing. With a URL, the document is chunked
and embedded into an in-memory flat L2 index. Without one, the service
uses the base knowledge index that was loaded at startup. Every question
is answered against the same index. The service keeps its seven nearest
chunks, joins them into one context string and sends it to a
chat-completion endpoint. The answers come back in question order.
An offline builder script produces the base knowledge index from a
directory of PDFs.

Modules:

- `Python` (python.dfy): the slice of Python semantics the code relies on.
  - List subscripting with negative indices and `IndexError`.
  - `str.strip` over Python's whitespace set, `str.replace` of one
    character, `str.join` and `str.endswith`.
  - Exceptions as an `Outcome` value.
- `Config` (config.dfy): the settings object, seen through attribute lookup.
- `VectorStore` (vector_store.dfy): building, saving and loading an
  index, and mapping search ids back to chunks. The file system is a map
  from path to file.
- `LlmService` (llm_service.dfy): the request an answer is built from,
  reply cleaning, and the error sentinels.
- `App` (app.dfy): startup loading, the routing of `run_submission`, its
  status codes and the ordered fan-out over the questions.
- `BaseKnowledgeBuilder` (build_base_knowledge.dfy): the builder's `main`.

Several parts are oracles, passed in as total functions:
- the sentence embedder;
- FAISS's nearest-neighbour ranking (ids, best first, padded with -1);
- PDF fetching and chunking;
- the HTTP post to the completion endpoint.

The request handler takes its search function as a parameter.
`App.SearchWith` wires in the search as written (`VectorStore.SearchIndex`).
`App.SearchWithIntended` wires in the corrected one
(`VectorStore.SearchIndexIntended`).

Two behaviours of the code are easy to miss:
- A document that yields no text ends in status 500, not 400 (see Findings).
- The search asks FAISS for seven ids whatever the index size. FAISS pads
  the result with -1, and the code keeps those pads (see Findings).

## Model

| member | source | states |
|---|---|---|
| Python.IsSpaceTable | app/services/llm_service.py:54 | the whitespace `str.strip()` removes is exactly the listed set of 29 characters: ASCII space, `\t` to `\r`, the four separator controls, U+0085, U+00A0, U+1680, U+2000 to U+200A, U+2028, U+2029, U+202F, U+205F and U+3000 |
| Python.EndsWithPointwise | build_base_knowledge.py:12 | `s.endswith(suffix)` holds exactly when the last `len(suffix)` characters of `s` match `suffix` position by position, and `s` is then some text followed by `suffix` |
| Python.Subscript | app/services/vector_store.py:38 | `chunks[i]` returns exactly when `-len <= i < len`, giving element `i`, or element `len+i` for a negative `i`; otherwise it raises `IndexError` |
| Python.LStrip | app/services/llm_service.py:54 | the result is the suffix left after dropping only whitespace, and it does not start with whitespace |
| Python.RStrip | app/services/llm_service.py:54 | the result is the prefix left after dropping only whitespace, and it does not end with whitespace |
| Python.Strip | app/services/llm_service.py:54 | the stripped text has no Python whitespace at either end and is no longer than the input |
| Python.StripUnique | app/services/llm_service.py:54 | stripping whitespace-only borders off a trimmed middle gives back exactly that middle |
| Python.StripTrimmed | app/services/llm_service.py:54 | stripping text that is already trimmed leaves it unchanged |
| Python.ReplaceChar | app/services/llm_service.py:54 | each character equal to the target becomes the replacement; every other character and the length are kept |
| Python.ReplaceAbsent | app/services/llm_service.py:54 | replacing a character that does not occur changes nothing |
| Python.Join | app/services/llm_service.py:12 | joining no items gives "", one item gives that item; the result starts with the first item, ends with the last, and is as long as the items plus one separator between each pair |
| Python.JoinConcat | app/services/llm_service.py:12 | joining two lists end to end is joining each and putting one separator between them |
| Config.Settings.Attr | app/services/llm_service.py:45-48 | `settings.NAME` resolves exactly when the name is a settings field, to that field's value; otherwise it raises `AttributeError` |
| Config.DeclaredSettings | app/core/config.py:4-9 | the declared fields are exactly BEARER_TOKEN, GOOGLE_API_KEY and LLM_MODEL, and LLM_MODEL defaults to "gemini-1.5-flash" |
| Config.IntendedSettings | app/services/llm_service.py:45-48 | the fields are exactly the three declared ones plus OPENROUTER_API_KEY, which resolves to the given key; LLM_MODEL resolves to its value or the "gemini-1.5-flash" default |
| LlmService.ContextString | app/services/llm_service.py:12 | the context is "" for no chunks; otherwise it starts with the first chunk, ends with the last, and is as long as the chunks plus one rule separator between each pair |
| LlmService.ContextStringConcat | app/services/llm_service.py:12 | the context of two chunk lists end to end is the context of each with exactly one rule separator between them, so every adjacent pair of chunks is separated by one rule |
| LlmService.RequestFor | app/services/llm_service.py:12-51 | a request is posted exactly when both settings attributes resolve; it goes to the OpenRouter completions URL with the LLM_MODEL value as model, and carries the question, the chunks joined with the rule separator, and "Bearer " plus the key |
| LlmService.CleanReply | app/services/llm_service.py:54 | a cleaned reply contains no newline and no outer whitespace |
| LlmService.CleanReplyFixedPoints | app/services/llm_service.py:54 | cleaning leaves a reply unchanged exactly when it has no newline and no outer whitespace |
| LlmService.CleanReplyIdempotent | app/services/llm_service.py:54 | cleaning twice is the same as cleaning once |
| LlmService.GetAnswerFromLlm | app/services/llm_service.py:40-62 | never raises; an HTTP status error gives the model-error sentinel; any other failure, a missing setting included, gives the generic sentinel; a reply gives its cleaned content |
| LlmService.DeclaredSettingsNeverReachModel | app/services/llm_service.py:45 | with the settings class as declared, no request is built and every answer is the generic error sentinel, whatever the endpoint would reply |
| LlmService.IntendedSettingsReachModel | app/services/llm_service.py:40-55 | with the key present, the request carries the key and the joined context, and a reply reaches the caller cleaned |
| VectorStore.BuildIndex | app/services/vector_store.py:29-31 | building succeeds exactly on a non-empty chunk list, and vector `i` is the embedding of chunk `i` |
| VectorStore.CreateIndexFromChunks | app/services/vector_store.py:27-32 | returns an index with one vector per chunk, together with the very chunk list it was given |
| VectorStore.CreateAndSaveIndex | app/services/vector_store.py:10-18 | saving adds or overwrites exactly `prefix.faiss` and `prefix.pkl`; every other path is unchanged |
| VectorStore.LoadIndex | app/services/vector_store.py:20-25 | loading returns exactly when both files exist and have the right kinds, and then gives the stored index and the stored chunk list |
| VectorStore.LoadAfterSave | app/services/vector_store.py:10-25 | loading a prefix just saved gives back the built index and exactly the saved chunk list |
| VectorStore.FaissPath | app/services/vector_store.py:16 | the index file name is the prefix followed by ".faiss" |
| VectorStore.PicklePath | app/services/vector_store.py:17 | the chunk file name is the prefix followed by ".pkl" |
| VectorStore.PathsDistinct | app/services/vector_store.py:16-17 | the file names of distinct prefixes never collide, within a kind or across kinds |
| VectorStore.SaveKeepsOtherPrefixes | app/services/vector_store.py:10-25 | saving under one prefix leaves what any other prefix loads unchanged |
| VectorStore.Survivors | app/services/vector_store.py:38 | the ids kept by the filter `i < len(chunks)` are exactly the listed ids below the bound |
| VectorStore.SurvivorsConcat | app/services/vector_store.py:38 | the filter keeps the order of the ids |
| VectorStore.HitsToChunks | app/services/vector_store.py:38 | the mapping raises `IndexError` exactly when some id is below `-len(chunks)`; otherwise result `j` is `chunks[s]` for the `j`-th surviving id `s` |
| VectorStore.SearchIndex | app/services/vector_store.py:34-38 | given FAISS's exactly `k` ids, a search returns at most `k` chunks, each of them one of the chunks |
| VectorStore.SearchIndexIntended | app/services/vector_store.py:34-38 | the corrected search never raises and returns at most `k` chunks, each of them one of the chunks |
| VectorStore.HitMapsToChunk | app/services/vector_store.py:38 | a surviving id `i` lands after the survivors before it and maps to `chunks[i]`, or to `chunks[len+i]` when `i` is negative |
| VectorStore.PadHitIsLastChunk | app/services/vector_store.py:38 | a -1 pad id survives the filter and maps to the last chunk |
| VectorStore.OutOfRangeHitDropped | app/services/vector_store.py:38 | an id at or past the end of the list is dropped without any other effect |
| VectorStore.SameSurvivorsSameHits | app/services/vector_store.py:38 | the result depends only on the surviving ids and on whether any id raises |
| VectorStore.ValidIds | app/services/vector_store.py:38 | the corrected filter keeps exactly the listed ids that name real positions, `0 <= i < n` |
| VectorStore.HitsToChunksIntended | app/services/vector_store.py:38 | the corrected mapping returns `chunks[i]` for each id with `0 <= i < len(chunks)`, in order, and never raises |
| VectorStore.ValidIdsConcat | app/services/vector_store.py:38 | the corrected filter keeps the order of the ids |
| VectorStore.Negatives | app/services/vector_store.py:38 | the count of negative ids is zero exactly when no id is negative |
| VectorStore.ValidIdsVsSurvivors | app/services/vector_store.py:38 | without negative ids both filters keep the same ids; the written filter keeps exactly one more id per negative id |
| VectorStore.AgreesIffNoNegativeIds | app/services/vector_store.py:38 | the written and the corrected mapping agree exactly when no id is negative |
| VectorStore.PaddedHitsRepeatLastChunk | app/services/vector_store.py:37-38 | with real hits followed by pads, the written mapping returns the chunks of the real hits in order, then the last chunk once per pad |
| VectorStore.PaddedHitsIntended | app/services/vector_store.py:37-38 | with real hits followed by pads, the corrected mapping returns exactly the chunks of the real hits |
| VectorStore.ShortDocumentSearchExample | app/services/vector_store.py:37-38 | a three-chunk document searched with k = 7 gets seven chunks, the last one five times; the corrected mapping gets three |
| App.LoadBaseKnowledge | app/main.py:21-30 | the two startup globals are set together, exactly when the base pair loads, and to the loaded index and chunks |
| App.ProcessDocument | app/main.py:47-53 | an exception from chunking propagates; an empty chunk list raises an HTTP 400; for a non-empty list the outcome is the index builder's, success binding what it returned and its exception propagating |
| App.RewrapAsWritten | app/main.py:55-56 | every exception from the document branch becomes an HTTP 500 |
| App.RewrapIntended | app/main.py:49-56 | an HTTP exception passes through unchanged, anything else becomes an HTTP 500 |
| App.ResolveIndex | app/main.py:45-61 | without a document: the startup pair, or 503 exactly when a global is unset; with one: the document's pair, or its exception passed through the handler |
| App.StatusOf | app/main.py:55-69 | an escaping HTTP exception answers with its own status, any other exception with 500 |
| App.Respond | app/main.py:63-71 | success exactly when a pair is bound and every question's search returns, with positional answers; otherwise the status of the exception that escaped, for the fan-out that of the first raising search in question order |
| App.BuildWithSpec | app/main.py:53 | the index builder fails exactly on no chunks, and returns the chunk list it was given with one vector per chunk |
| App.SearchWithSpec | app/main.py:65 | the search raises exactly when FAISS reports an id below `-len(chunks)`, and returns at most `k` chunks |
| App.AnswerWithSpec | app/main.py:66 | every answer is one of the two error sentinels or a single line without outer whitespace |
| App.AnswerOne | app/main.py:64-66 | a question's coroutine searches the bound pair with k = 7 and answers from the chunks found; it raises exactly when the search raises |
| App.Gather | app/main.py:64-69 | the fan-out returns exactly when every coroutine does, with one answer per question in question order; otherwise it raises the exception of the first raising coroutine in question order, the one `asyncio.gather` reports because each search runs before its coroutine's first await |
| App.RunSubmission | app/main.py:39-71 | no document and no base gives 503; any document failure gives 500; success exactly when a pair is bound and every search returns, and then every question is answered, in order, against that one pair, which is the base pair or the pair built from the document's chunks; otherwise the status is that of the first raising search in question order |
| App.RunSubmissionIntended | app/main.py:47-56 | with the 400 let through: an empty document gives 400, and a non-HTTP failure gives 500 |
| App.EmptyDocumentIsServerError | app/main.py:49-56 | a document that yields no chunks raises 400 inside the `try`, and the response is 500 as written but 400 as intended |
| App.DocumentRequestIgnoresBase | app/main.py:45-61 | a request with a document never depends on the startup pair |
| App.EarlyFailureAnswersNothing | app/main.py:45-61 | when the request fails before the fan-out, how the questions would be searched or answered does not matter |
| App.DocumentRequestEndToEnd | app/main.py:45-71 | a document with chunks and FAISS ids no lower than -1 gives a success; answer `i` is generated from the chunks that question `i`'s hits select in the index built over those chunks |
| App.BaseRequestEndToEnd | app/main.py:57-71 | with no document, a loaded non-empty base pair and FAISS ids no lower than -1, the request succeeds; answer `i` is generated from the chunks that question `i`'s hits select in the base index |
| App.DocumentRequestEndToEndIntended | app/main.py:45-71 | with the corrected search, a document with chunks always succeeds, and answer `i` is generated from at most seven chunks of real hits |
| BaseKnowledgeBuilder.PdfFiles | build_base_knowledge.py:12 | the listed files are exactly the entries ending in ".pdf" |
| BaseKnowledgeBuilder.PdfFilesConcat | build_base_knowledge.py:12 | the filter keeps the listing order |
| BaseKnowledgeBuilder.PdfPath | build_base_knowledge.py:22 | a file's path is the base-knowledge directory, a slash, then the entry name |
| BaseKnowledgeBuilder.PdfPathInjective | build_base_knowledge.py:22 | distinct entries are read from distinct paths |
| BaseKnowledgeBuilder.CollectChunks | build_base_knowledge.py:19-24 | collection succeeds exactly when every file's processing does, and then holds exactly the chunks of the files; otherwise it raises the exception of a file whose predecessors all succeeded |
| BaseKnowledgeBuilder.CollectChunksConcat | build_base_knowledge.py:19-24 | collecting two file lists end to end is collecting each and concatenating the results |
| BaseKnowledgeBuilder.EmptyFileContributesNothing | build_base_knowledge.py:23-24 | a file that yields no chunks does not change the accumulated list |
| BaseKnowledgeBuilder.RaisedPrefixRaises | build_base_knowledge.py:20-24 | an exception on a prefix of the files ends the whole loop with that exception |
| BaseKnowledgeBuilder.CollectAll | build_base_knowledge.py:19-24 | the loop computes exactly the collection: the files' chunk lists joined in order, or the first file's exception |
| BaseKnowledgeBuilder.BuildBaseKnowledge | build_base_knowledge.py:11-34 | no PDF, a crash or no text leaves the store unchanged; otherwise exactly one save of every chunk in file order, which then loads back as the index over those chunks |
| BaseKnowledgeBuilder.SavedKnowledgeIsLoadedAtStartup | app/main.py:21-23 | what the builder saves, the service loads at startup as both globals |
| BaseKnowledgeBuilder.BaseRequestUsesBuiltKnowledge | app/main.py:57-61 | after a build, a request without a document is answered against the built index and the full chunk list |

## Left out

- Document processing: `process_pdf_from_url` (called at app/main.py:48) and `process_pdf_from_path` (imported at build_base_knowledge.py:3) are oracles returning chunks or an exception. The `app/services/document_processor.py` in the repository defines neither function, only the download, extraction and chunking helpers. Called as it stands, every document request would raise `AttributeError` and end in a 500, and the builder's import would fail. A raising oracle covers both cases.
- Pydantic's own attributes of the settings object (`model_config`, declared at app/core/config.py:9, and `model_fields`, `model_dump` and the like) are not modelled. Only the declared fields resolve through `Config.Settings.Attr`, and none of pydantic's attributes is named like a field the service reads.
- The embedding model and FAISS's nearest-neighbour ranking: floating-point numerics, passed in as oracles. Ties and the ranking order are not modelled.
- The embedding dimension: it is taken from the first vector. Vectors of unequal width, which FAISS would reject, are not modelled.
- File formats of `faiss.write_index` and `pickle`: a file is modelled as its contents. `os.makedirs` is not modelled. The directory listing is a parameter, in whatever order the OS gives.
- The HTTP transport: the 30-second timeout and the JSON request and response bodies. A reply is one of three outcomes: content, an HTTP status error, or any other failure. The prompt is modelled as the two values it interpolates; its instruction prose is not.
- Bearer-token authentication of the route (`verify_token`, not part of this model), the FastAPI routing, the root endpoint and response serialisation.
- Pydantic validation of the request body, which happens before the handler runs. An empty question list and a malformed URL are rejected with 422. Only the presence of `documents` matters to the model.
- `asyncio` scheduling: the per-question coroutines are modelled as pure functions of the shared pair. When one raises, the model does not track the calls the others still make, which keep running.
- Logging and `print`.
- LlmService.GetAnswerFromLlm: the one-line, trimmed shape is stated for a cleaned reply only. The two sentinel strings are fixed constants and are not checked against it.

## Findings

| source | as written | input that shows it | evidently intended | confidence | as-written member | corrected member |
|---|---|---|---|---|---|---|
| app/services/vector_store.py:38 | keeps every id `i < len(chunks)`, so FAISS's -1 pad ids pass and index the last chunk | a three-chunk document, k = 7, FAISS ids [2, 0, 1, -1, -1, -1, -1]: seven chunks come back, the last one five times | keep only `0 <= i < len(chunks)` | not executed; high | VectorStore.ShortDocumentSearchExample | VectorStore.HitsToChunksIntended |
| app/main.py:49-56 | the HTTP 400 for an empty document is raised inside the `try`, whose `except Exception` re-raises it as 500 | a document URL whose processing returns no chunks | the 400 reaches the client | not executed; high | App.EmptyDocumentIsServerError | App.RunSubmissionIntended |
| app/services/llm_service.py:45 | reads `settings.OPENROUTER_API_KEY`, which the settings class (app/core/config.py:4-7) does not declare, so every call raises inside the `try` and returns the generic sentinel | any question, with the settings as declared | the settings declare the OpenRouter key | not executed; high | LlmService.DeclaredSettingsNeverReachModel | Config.IntendedSettings |

=== FILE: app.dfy ===
/** The request handler: it binds one (index, chunks) pair, either built
    for the document named in the request or the base knowledge loaded at
    startup, and answers every question against that pair, keeping the
    answers in question order. Failures become HTTP status codes. */
module App {
  import opened Python
  import VectorStore
  import LlmService
  import Config

  const BaseKnowledgeStorePath := "app/data/vector_store/base_knowledge"

  /** Chunks retrieved per question. */
  const TopK: nat := 7

  /** The request body: an optional document URL and the questions. */
  datatype Request = Request(documents: Option<string>, questions: seq<string>)

  datatype Response = Failure(statusCode: int) | Success(answers: seq<string>)

  /** The module globals `base_index` and `base_chunks` after startup. */
  datatype BaseKnowledge = BaseKnowledge(baseIndex: Option<VectorStore.Index>, baseChunks: Option<seq<string>>)

  /** The pair every question of one request is answered against. */
  datatype Binding = Bound(index: VectorStore.Index, chunks: seq<string>)

  /** `process_pdf_from_url` here, `process_pdf_from_path` in the builder:
      a document's chunks, or an exception. */
  type ProcessOracle = string -> Outcome<seq<string>>

  /** `create_faiss_index_from_chunks`. */
  type BuildOracle = seq<string> -> Outcome<(VectorStore.Index, seq<string>)>

  /** `search_faiss_index(index, chunks, question, k)`. */
  type SearchOracle = (VectorStore.Index, seq<string>, string, nat) -> Outcome<seq<string>>

  /** `get_answer_from_llm(question, relevant_chunks)`, which never raises. */
  type AnswerOracle = (string, seq<string>) -> string

  /** Startup: load the base pair if its index file exists; a missing file
      or any exception while loading leaves both globals `None`. */
  function LoadBaseKnowledge(store: VectorStore.FileStore): (b: BaseKnowledge)
    ensures b.baseIndex.Some? <==> b.baseChunks.Some?
    ensures b.baseIndex.Some? <==> VectorStore.LoadIndex(store, BaseKnowledgeStorePath).Returned?
    ensures b.baseIndex.Some? ==>
      VectorStore.LoadIndex(store, BaseKnowledgeStorePath) == Returned((b.baseIndex.value, b.baseChunks.value))
  {
    if VectorStore.FaissPath(BaseKnowledgeStorePath) in store then
      match VectorStore.LoadIndex(store, BaseKnowledgeStorePath)
      case Returned(pair) => BaseKnowledge(Some(pair.0), Some(pair.1))
      case Raised(_) => BaseKnowledge(None, None)
    else BaseKnowledge(None, None)
  }

  /** The `try` body of the document branch: fetch and chunk, reject an
      empty chunk list with a 400, build the in-memory index. */
  function ProcessDocument(url: string, process: ProcessOracle, build: BuildOracle): (r: Outcome<Binding>)
    ensures process(url).Raised? ==> r == Raised(process(url).error)
    ensures process(url) == Returned([]) ==> r == Raised(HTTPException(400))
    ensures r.Returned? ==>
      && process(url).Returned? && |process(url).value| > 0
      && build(process(url).value) == Returned((r.value.index, r.value.chunks))
    // chunks were found: the outcome is the index builder's
    ensures process(url).Returned? && |process(url).value| > 0 ==>
      && (r.Returned? <==> build(process(url).value).Returned?)
      && (r.Raised? ==> r.error == build(process(url).value).error)
  {
    match process(url)
    case Raised(e) => Raised(e)
    case Returned(docChunks) =>
      if |docChunks| == 0 then Raised(HTTPException(400))
      else
        match build(docChunks)
        case Raised(e) => Raised(e)
        case Returned(pair) => Returned(Bound(pair.0, pair.1))
  }

  /** The `except Exception` clause as written: every exception from the
      `try` body, the 400 included, is re-raised as a 500. */
  function RewrapAsWritten(e: Exception): (r: Exception)
    ensures r.HTTPException? && r.statusCode == 500
  {
    HTTPException(500)
  }

  /** The evidently intended handler: an `HTTPException` passes through,
      anything else becomes a 500. */
  function RewrapIntended(e: Exception): (r: Exception)
    ensures r.HTTPException?
    ensures e.HTTPException? ==> r == e
    ensures !e.HTTPException? ==> r.statusCode == 500
  {
    if e.HTTPException? then e else HTTPException(500)
  }

  /** Which pair the request is answered against, or the `HTTPException`
      that ends it before any question is looked at. */
  function ResolveIndex(req: Request, base: BaseKnowledge, process: ProcessOracle, build: BuildOracle,
                        rewrap: Exception -> Exception): (r: Outcome<Binding>)
    // no document: the startup pair, or 503 exactly when a global is unset
    ensures req.documents.None? ==>
      && (r.Raised? <==> base.baseIndex.None? || base.baseChunks.None?)
      && (r.Raised? ==> r.error == HTTPException(503))
      && (r.Returned? ==> r.value == Bound(base.baseIndex.value, base.baseChunks.value))
    // a document: its processing, with any exception passed through `rewrap`
    ensures req.documents.Some? ==>
      var d := ProcessDocument(req.documents.value, process, build);
      && (r.Returned? <==> d.Returned?)
      && (r.Returned? ==> r.value == d.value)
      && (r.Raised? ==> r.error == rewrap(d.error))
  {
    match req.documents
    case Some(url) =>
      (match ProcessDocument(url, process, build)
       case Raised(e) => Raised(rewrap(e))
       case Returned(b) => Returned(b))
    case None =>
      if base.baseIndex.None? || base.baseChunks.None? then Raised(HTTPException(503))
      else Returned(Bound(base.baseIndex.value, base.baseChunks.value))
  }

  /** One question's coroutine: search the bound pair, then ask for an answer. */
  function AnswerOne(b: Binding, question: string, search: SearchOracle, answer: AnswerOracle): (r: Outcome<string>)
    ensures r.Returned? <==> search(b.index, b.chunks, question, TopK).Returned?
    ensures r.Returned? ==> r.value == answer(question, search(b.index, b.chunks, question, TopK).value)
  {
    match search(b.index, b.chunks, question, TopK)
    case Raised(e) => Raised(e)
    case Returned(relevant) => Returned(answer(question, relevant))
  }

  /** `asyncio.gather` over one coroutine per question: the results in question
      order, whatever order they finish in, or the exception of the
      first one, in question order, that raises. Each search runs before
      its coroutine's first await, so that is the one gather reports.
      All of them read the same binding. */
  function Gather(b: Binding, questions: seq<string>, search: SearchOracle, answer: AnswerOracle): (r: Outcome<seq<string>>)
    ensures r.Returned? <==> forall i :: 0 <= i < |questions| ==> AnswerOne(b, questions[i], search, answer).Returned?
    ensures r.Returned? ==> |r.value| == |questions|
    ensures r.Returned? ==> forall i :: 0 <= i < |questions| ==>
      r.value[i] == answer(questions[i], search(b.index, b.chunks, questions[i], TopK).value)
    ensures r.Raised? ==> exists i :: 0 <= i < |questions| && AnswerOne(b, questions[i], search, answer) == Raised(r.error)
                                 && forall j :: 0 <= j < i ==> AnswerOne(b, questions[j], search, answer).Returned?
  {
    if |questions| == 0 then Returned([])
    else
      var last := |questions| - 1;
      var init := Gather(b, questions[..last], search, answer);
      assert forall i :: 0 <= i < last ==> questions[..last][i] == questions[i];
      match init
      case Raised(e) => Raised(e)
      case Returned(front) =>
        match AnswerOne(b, questions[last], search, answer)
        case Raised(e) => Raised(e)
        case Returned(a) => Returned(front + [a])
  }

  /** The HTTP status a raised exception turns into: an `HTTPException`
      carries its own, anything else is an internal server error. */
  function StatusOf(e: Exception): (code: int)
    ensures e.HTTPException? ==> code == e.statusCode
    ensures !e.HTTPException? ==> code == 500
  {
    if e.HTTPException? then e.statusCode else 500
  }

  /** The response FastAPI sends: the answers, or the status of the
      exception that escaped the handler. */
  function Respond(resolved: Outcome<Binding>, questions: seq<string>, search: SearchOracle,
                   answer: AnswerOracle): (r: Response)
    ensures r.Success? <==>
      resolved.Returned? && forall i :: 0 <= i < |questions| ==>
        search(resolved.value.index, resolved.value.chunks, questions[i], TopK).Returned?
    ensures resolved.Raised? ==> r == Failure(StatusOf(resolved.error))
    ensures r.Success? ==> |r.answers| == |questions| && forall i :: 0 <= i < |questions| ==>
      r.answers[i] == answer(questions[i], search(resolved.value.index, resolved.value.chunks, questions[i], TopK).value)
    // a failing search during the fan-out: the status of the first one, in question order
    ensures resolved.Returned? && r.Failure? ==>
      exists i, e :: 0 <= i < |questions|
        && search(resolved.value.index, resolved.value.chunks, questions[i], TopK) == Raised(e)
        && r.statusCode == StatusOf(e)
        && forall j :: 0 <= j < i ==> search(resolved.value.index, resolved.value.chunks, questions[j], TopK).Returned?
  {
    match resolved
    case Raised(e) => Failure(StatusOf(e))
    case Returned(b) =>
      match Gather(b, questions, search, answer)
      case Raised(e) => Failure(StatusOf(e))
      case Returned(answers) => Success(answers)
  }

  /** `run_submission` as written. */
  function RunSubmission(req: Request, base: BaseKnowledge, process: ProcessOracle, build: BuildOracle,
                         search: SearchOracle, answer: AnswerOracle): (r: Response)
    // no document and no base pair: 503, whatever search and answer would do
    ensures req.documents.None? && (base.baseIndex.None? || base.baseChunks.None?) ==> r == Failure(503)
    // success exactly when a pair is bound and every question's search returns
    ensures r.Success? <==>
      var b := ResolveIndex(req, base, process, build, RewrapAsWritten);
      b.Returned? && forall i :: 0 <= i < |req.questions| ==>
        search(b.value.index, b.value.chunks, req.questions[i], TopK).Returned?
    // the first search that raises, in question order, ends the request with its exception's status
    ensures ResolveIndex(req, base, process, build, RewrapAsWritten).Returned? && r.Failure? ==>
      var b := ResolveIndex(req, base, process, build, RewrapAsWritten).value;
      exists i, e :: 0 <= i < |req.questions|
        && search(b.index, b.chunks, req.questions[i], TopK) == Raised(e)
        && r.statusCode == StatusOf(e)
        && forall j :: 0 <= j < i ==> search(b.index, b.chunks, req.questions[j], TopK).Returned?
    // any failure while preparing the document, an empty chunk list included, is a 500
    ensures req.documents.Some? && ProcessDocument(req.documents.value, process, build).Raised? ==>
      r == Failure(500)
    // a success answers every question, in order, against one shared pair
    ensures r.Success? ==>
      var b := ResolveIndex(req, base, process, build, RewrapAsWritten);
      && b.Returned?
      && |r.answers| == |req.questions|
      && forall i :: 0 <= i < |req.questions| ==>
           && search(b.value.index, b.value.chunks, req.questions[i], TopK).Returned?
           && r.answers[i] == answer(req.questions[i], search(b.value.index, b.value.chunks, req.questions[i], TopK).value)
    // that pair is the startup pair when no document is given ...
    ensures r.Success? && req.documents.None? ==>
      ResolveIndex(req, base, process, build, RewrapAsWritten).value
      == Bound(base.baseIndex.value, base.baseChunks.value)
    // ... and the one built from the document's chunks otherwise
    ensures r.Success? && req.documents.Some? ==>
      var chunks := process(req.documents.value);
      && chunks.Returned? && |chunks.value| > 0
      && var b := ResolveIndex(req, base, process, build, RewrapAsWritten).value;
         build(chunks.value) == Returned((b.index, b.chunks))
  {
    Respond(ResolveIndex(req, base, process, build, RewrapAsWritten), req.questions, search, answer)
  }

  /** `run_submission` with the evidently intended exception handler. */
  function RunSubmissionIntended(req: Request, base: BaseKnowledge, process: ProcessOracle, build: BuildOracle,
                                 search: SearchOracle, answer: AnswerOracle): (r: Response)
    ensures req.documents.Some? && process(req.documents.value) == Returned([]) ==> r == Failure(400)
    ensures (req.documents.Some? && process(req.documents.value).Raised?
             && !process(req.documents.value).error.HTTPException?) ==> r == Failure(500)
  {
    Respond(ResolveIndex(req, base, process, build, RewrapIntended), req.questions, search, answer)
  }

  /** A document that yields no chunks is answered with a 500, not the
      400 raised for it, because the raise sits inside the `try`. */
  lemma EmptyDocumentIsServerError(req: Request, base: BaseKnowledge, process: ProcessOracle,
                                   build: BuildOracle, search: SearchOracle, answer: AnswerOracle)
    requires req.documents.Some? && process(req.documents.value) == Returned([])
    ensures ProcessDocument(req.documents.value, process, build) == Raised(HTTPException(400))
    ensures RunSubmission(req, base, process, build, search, answer) == Failure(500)
    ensures RunSubmissionIntended(req, base, process, build, search, answer) == Failure(400)
  {
  }

  /** With a document, the startup pair is never consulted. */
  lemma DocumentRequestIgnoresBase(req: Request, base1: BaseKnowledge, base2: BaseKnowledge,
                                   process: ProcessOracle, build: BuildOracle,
                                   search: SearchOracle, answer: AnswerOracle)
    requires req.documents.Some?
    ensures RunSubmission(req, base1, process, build, search, answer)
         == RunSubmission(req, base2, process, build, search, answer)
  {
  }

  /** A failure that happens before the fan-out does not depend on how
      questions would be searched or answered: none of them is. */
  lemma EarlyFailureAnswersNothing(req: Request, base: BaseKnowledge, process: ProcessOracle, build: BuildOracle,
                                   search1: SearchOracle, answer1: AnswerOracle,
                                   search2: SearchOracle, answer2: AnswerOracle)
    requires ResolveIndex(req, base, process, build, RewrapAsWritten).Raised?
    ensures RunSubmission(req, base, process, build, search1, answer1)
         == RunSubmission(req, base, process, build, search2, answer2)
  {
  }

  /** The library-backed implementations of the oracles. */
  function BuildWith(embed: string -> VectorStore.Vector): BuildOracle {
    chunks => VectorStore.CreateIndexFromChunks(chunks, embed)
  }

  function SearchWith(embed: string -> VectorStore.Vector, faiss: VectorStore.FaissSearch): SearchOracle {
    (index: VectorStore.Index, chunks: seq<string>, question: string, k: nat) => VectorStore.SearchIndex(index, chunks, question, k, embed, faiss)
  }

  function SearchWithIntended(embed: string -> VectorStore.Vector, faiss: VectorStore.FaissSearch): SearchOracle {
    (index: VectorStore.Index, chunks: seq<string>, question: string, k: nat) =>
      Returned(VectorStore.SearchIndexIntended(index, chunks, question, k, embed, faiss))
  }

  function AnswerWith(settings: Config.Settings, post: LlmService.ChatRequest -> LlmService.Reply): AnswerOracle {
    (question, context) => LlmService.GetAnswerFromLlm(question, context, settings, post)
  }

  /** The index builder of `create_faiss_index_from_chunks`: it fails
      exactly on no chunks and hands back the chunk list it was given,
      with one vector per chunk. */
  lemma BuildWithSpec(embed: string -> VectorStore.Vector, chunks: seq<string>)
    ensures BuildWith(embed)(chunks).Returned? <==> |chunks| > 0
    ensures BuildWith(embed)(chunks).Returned? ==>
      BuildWith(embed)(chunks).value.1 == chunks && |BuildWith(embed)(chunks).value.0.vectors| == |chunks|
  {
  }

  /** The search of `search_faiss_index`: it raises exactly when FAISS
      reports an id below `-len(chunks)`, and returns at most `k` chunks. */
  lemma SearchWithSpec(embed: string -> VectorStore.Vector, faiss: VectorStore.FaissSearch,
                       index: VectorStore.Index, chunks: seq<string>, question: string, k: nat)
    ensures SearchWith(embed, faiss)(index, chunks, question, k).Returned? <==>
      VectorStore.AllAtLeast(faiss(index, embed(question), k), -|chunks|)
    ensures SearchWith(embed, faiss)(index, chunks, question, k).Returned? ==>
      |SearchWith(embed, faiss)(index, chunks, question, k).value| <= k
  {
  }

  /** The answer of `get_answer_from_llm`: one of the two sentinels, or a
      single line without outer whitespace. */
  lemma AnswerWithSpec(settings: Config.Settings, post: LlmService.ChatRequest -> LlmService.Reply,
                       question: string, context: seq<string>)
    ensures var a := AnswerWith(settings, post)(question, context);
      a == LlmService.HttpErrorAnswer || a == LlmService.UnexpectedErrorAnswer || ('\n' !in a && Trimmed(a))
  {
  }

  /** The whole service on a document: when the document yields chunks and
      FAISS reports ids no lower than its -1 pad, the request succeeds with
      one answer per question, each generated from the chunks that
      question's hits select in the index built over those very chunks. */
  lemma DocumentRequestEndToEnd(req: Request, base: BaseKnowledge, process: ProcessOracle,
                                embed: string -> VectorStore.Vector, faiss: VectorStore.FaissSearch,
                                settings: Config.Settings, post: LlmService.ChatRequest -> LlmService.Reply)
    requires req.documents.Some?
    requires process(req.documents.value).Returned? && |process(req.documents.value).value| > 0
    requires forall index, v, k, t :: 0 <= t < |faiss(index, v, k)| ==> faiss(index, v, k)[t] >= -1
    ensures var chunks := process(req.documents.value).value;
      var index := VectorStore.BuildIndex(chunks, embed).value;
      var r := RunSubmission(req, base, process, BuildWith(embed), SearchWith(embed, faiss), AnswerWith(settings, post));
      && r.Success?
      && |r.answers| == |req.questions|
      && forall i :: 0 <= i < |req.questions| ==>
           r.answers[i] == LlmService.GetAnswerFromLlm(req.questions[i],
             VectorStore.HitsToChunks(chunks, faiss(index, embed(req.questions[i]), TopK)).value, settings, post)
  {
    var chunks := process(req.documents.value).value;
    var index := VectorStore.BuildIndex(chunks, embed).value;
    var b := Bound(index, chunks);
    assert ResolveIndex(req, base, process, BuildWith(embed), RewrapAsWritten) == Returned(b);
    forall i | 0 <= i < |req.questions|
      ensures AnswerOne(b, req.questions[i], SearchWith(embed, faiss), AnswerWith(settings, post)).Returned?
    {
      var ids := faiss(index, embed(req.questions[i]), TopK);
      assert VectorStore.AllAtLeast(ids, -|chunks|);
    }
  }

  /** The whole service without a document: once the startup pair is
      loaded, and FAISS reports ids no lower than its -1 pad, the request
      succeeds with one answer per question, each generated from the chunks
      that question's hits select in the base index. */
  lemma BaseRequestEndToEnd(req: Request, base: BaseKnowledge, process: ProcessOracle, build: BuildOracle,
                            embed: string -> VectorStore.Vector, faiss: VectorStore.FaissSearch,
                            settings: Config.Settings, post: LlmService.ChatRequest -> LlmService.Reply)
    requires req.documents.None? && base.baseIndex.Some? && base.baseChunks.Some?
    requires |base.baseChunks.value| > 0
    requires forall index, v, k, t :: 0 <= t < |faiss(index, v, k)| ==> faiss(index, v, k)[t] >= -1
    ensures var chunks := base.baseChunks.value;
      var r := RunSubmission(req, base, process, build, SearchWith(embed, faiss), AnswerWith(settings, post));
      && r.Success?
      && |r.answers| == |req.questions|
      && forall i :: 0 <= i < |req.questions| ==>
           r.answers[i] == LlmService.GetAnswerFromLlm(req.questions[i],
             VectorStore.HitsToChunks(chunks, faiss(base.baseIndex.value, embed(req.questions[i]), TopK)).value,
             settings, post)
  {
    var b := Bound(base.baseIndex.value, base.baseChunks.value);
    assert ResolveIndex(req, base, process, build, RewrapAsWritten) == Returned(b);
    forall i | 0 <= i < |req.questions|
      ensures SearchWith(embed, faiss)(b.index, b.chunks, req.questions[i], TopK).Returned?
    {
      var ids := faiss(b.index, embed(req.questions[i]), TopK);
      assert VectorStore.AllAtLeast(ids, -|b.chunks|);
    }
  }

  /** With the corrected search, a document with chunks always gets one
      answer per question, whatever ids FAISS reports, and each answer is
      generated from at most seven chunks of real hits. */
  lemma DocumentRequestEndToEndIntended(req: Request, base: BaseKnowledge, process: ProcessOracle,
                                        embed: string -> VectorStore.Vector, faiss: VectorStore.FaissSearch,
                                        settings: Config.Settings, post: LlmService.ChatRequest -> LlmService.Reply)
    requires req.documents.Some?
    requires process(req.documents.value).Returned? && |process(req.documents.value).value| > 0
    ensures var chunks := process(req.documents.value).value;
      var index := VectorStore.BuildIndex(chunks, embed).value;
      var r := RunSubmission(req, base, process, BuildWith(embed), SearchWithIntended(embed, faiss),
                             AnswerWith(settings, post));
      && r.Success?
      && |r.answers| == |req.questions|
      && forall i :: 0 <= i < |req.questions| ==>
           var relevant := VectorStore.HitsToChunksIntended(chunks, faiss(index, embed(req.questions[i]), TopK));
           && |relevant| <= TopK
           && r.answers[i] == LlmService.GetAnswerFromLlm(req.questions[i], relevant, settings, post)
  {
    var chunks := process(req.documents.value).value;
    var index := VectorStore.BuildIndex(chunks, embed).value;
    assert ResolveIndex(req, base, process, BuildWith(embed), RewrapAsWritten) == Returned(Bound(index, chunks));
  }
}

=== FILE: build_base_knowledge.dfy ===
/** The offline builder: it chunks every PDF in the base-knowledge
    directory, concatenates the chunk lists in listing order and saves one
    index over all of them, unless there is nothing to save. */
module BaseKnowledgeBuilder {
  import opened Python
  import VectorStore
  import App

  const BaseKnowledgePath := "app/data/base_knowledge"
  const FaissStorePath := "app/data/vector_store/base_knowledge"
  const PdfSuffix := ".pdf"

  /** How a run of the builder ends. An exception from processing a file
      is not caught and ends the script. */
  datatype Status = NoPdfFiles | NoText | Saved | Crashed(error: Exception)

  /** The directory entries whose names end in ".pdf" (case-sensitive),
      in listing order. */
  function PdfFiles(listing: seq<string>): (r: seq<string>)
    ensures forall f :: f in r <==> f in listing && EndsWith(f, PdfSuffix)
    ensures |r| <= |listing|
  {
    if |listing| == 0 then []
    else (if EndsWith(listing[0], PdfSuffix) then [listing[0]] else []) + PdfFiles(listing[1..])
  }

  /** Filtering keeps the relative order of the entries. */
  lemma {:induction false} PdfFilesConcat(a: seq<string>, b: seq<string>)
    ensures PdfFiles(a + b) == PdfFiles(a) + PdfFiles(b)
  {
    if |a| > 0 {
      assert (a + b)[1..] == a[1..] + b;
      PdfFilesConcat(a[1..], b);
    } else {
      assert a + b == b;
    }
  }

  /** `os.path.join(BASE_KNOWLEDGE_PATH, name)` for a bare entry name. */
  function PdfPath(name: string): (r: string)
    ensures |r| == |BaseKnowledgePath| + 1 + |name|
    ensures r[..|BaseKnowledgePath|] == BaseKnowledgePath && r[|BaseKnowledgePath|] == '/'
    ensures r[|BaseKnowledgePath| + 1..] == name
  {
    BaseKnowledgePath + "/" + name
  }

  /** Distinct entries of the directory are read from distinct paths. */
  lemma PdfPathInjective(a: string, b: string)
    requires a != b
    ensures PdfPath(a) != PdfPath(b)
  {
    assert PdfPath(a)[|BaseKnowledgePath| + 1..] == a;
    assert PdfPath(b)[|BaseKnowledgePath| + 1..] == b;
  }

  /** The loop's effect: the files' chunk lists joined end to end in file
      order, or the exception of the first file whose processing raises. */
  function CollectChunks(files: seq<string>, process: App.ProcessOracle): (r: Outcome<seq<string>>)
    ensures r.Returned? <==> forall i :: 0 <= i < |files| ==> process(PdfPath(files[i])).Returned?
    ensures r.Raised? ==> exists i :: 0 <= i < |files| && process(PdfPath(files[i])) == Raised(r.error)
                                   && forall j :: 0 <= j < i ==> process(PdfPath(files[j])).Returned?
    ensures r.Returned? ==> forall c :: c in r.value <==>
      exists i :: 0 <= i < |files| && c in process(PdfPath(files[i])).value
  {
    if |files| == 0 then Returned([])
    else
      var last := |files| - 1;
      var init := CollectChunks(files[..last], process);
      assert forall i :: 0 <= i < last ==> files[..last][i] == files[i];
      match init
      case Raised(e) => Raised(e)
      case Returned(acc) =>
        match process(PdfPath(files[last]))
        case Raised(e) => Raised(e)
        case Returned(chunks) => Returned(acc + chunks)
  }

  /** Collecting `a + b` is collecting `a`, then `b`. */
  lemma {:induction false} CollectChunksConcat(a: seq<string>, b: seq<string>, process: App.ProcessOracle)
    requires CollectChunks(a, process).Returned? && CollectChunks(b, process).Returned?
    ensures CollectChunks(a + b, process) == Returned(CollectChunks(a, process).value + CollectChunks(b, process).value)
  {
    var ra := CollectChunks(a, process).value;
    if |b| == 0 {
      assert a + b == a;
      assert ra + [] == ra;
    } else {
      var last := |b| - 1;
      var front := b[..last];
      assert forall i :: 0 <= i < last ==> front[i] == b[i];
      assert CollectChunks(front, process).Returned?;
      CollectChunksConcat(a, front, process);
      assert (a + b)[..|a + b| - 1] == a + front;
      assert (a + b)[|a + b| - 1] == b[last];
      var rf := CollectChunks(front, process).value;
      var c := process(PdfPath(b[last])).value;
      assert CollectChunks(b, process).value == rf + c;
      assert CollectChunks(a + b, process).value == (ra + rf) + c;
      assert (ra + rf) + c == ra + (rf + c);
    }
  }

  /** A file whose processing yields no chunks contributes nothing to the
      accumulated list. */
  lemma EmptyFileContributesNothing(a: seq<string>, f: string, b: seq<string>, process: App.ProcessOracle)
    requires process(PdfPath(f)) == Returned([])
    requires CollectChunks(a + b, process).Returned?
    ensures CollectChunks(a + [f] + b, process) == CollectChunks(a + b, process)
  {
    assert forall i :: 0 <= i < |a| ==> (a + b)[i] == a[i];
    assert forall i :: 0 <= i < |b| ==> (a + b)[|a| + i] == b[i];
    assert CollectChunks(a, process).Returned?;
    assert CollectChunks(b, process).Returned?;
    var ra := CollectChunks(a, process).value;
    assert CollectChunks([f], process) == Returned([]) by {
      assert [f][..0] == [];
      assert CollectChunks([f][..0], process) == Returned([]);
      assert [f][0] == f;
      var empty: seq<string> := [];
      assert empty + empty == empty;
    }
    CollectChunksConcat(a, [f], process);
    assert ra + [] == ra;
    CollectChunksConcat(a + [f], b, process);
    CollectChunksConcat(a, b, process);
  }

  /** Raising on a prefix of the files ends the whole run with that
      exception. */
  lemma {:induction false} RaisedPrefixRaises(files: seq<string>, n: nat, process: App.ProcessOracle)
    requires n <= |files| && CollectChunks(files[..n], process).Raised?
    ensures CollectChunks(files, process) == CollectChunks(files[..n], process)
    decreases |files| - n
  {
    if n < |files| {
      var longer := files[..n + 1];
      assert longer[..n] == files[..n];
      assert CollectChunks(longer, process) == CollectChunks(files[..n], process);
      assert files[..n + 1][..n + 1] == files[..n + 1];
      RaisedPrefixRaises(files, n + 1, process);
    } else {
      assert files[..n] == files;
    }
  }

  /** The loop of `main()`: process the files in order, extending the
      accumulated list, and stop at the first exception. */
  method CollectAll(pdfFiles: seq<string>, process: App.ProcessOracle) returns (r: Outcome<seq<string>>)
    ensures r == CollectChunks(pdfFiles, process)
  {
    var allChunks: seq<string> := [];
    var i := 0;
    while i < |pdfFiles|
      invariant 0 <= i <= |pdfFiles|
      invariant CollectChunks(pdfFiles[..i], process) == Returned(allChunks)
    {
      assert pdfFiles[..i + 1][..i] == pdfFiles[..i];
      match process(PdfPath(pdfFiles[i]))
      case Raised(e) =>
        assert CollectChunks(pdfFiles[..i + 1], process) == Raised(e);
        RaisedPrefixRaises(pdfFiles, i + 1, process);
        return Raised(e);
      case Returned(chunks) =>
        allChunks := allChunks + chunks;
      i := i + 1;
    }
    assert pdfFiles[..i] == pdfFiles;
    return Returned(allChunks);
  }

  /** The builder script's `main()`, over a directory listing and the file
      system it writes to. */
  method BuildBaseKnowledge(listing: seq<string>, store: VectorStore.FileStore, process: App.ProcessOracle,
                            embed: string -> VectorStore.Vector)
    returns (status: Status, store': VectorStore.FileStore)
    // no ".pdf" entry: nothing is processed or saved
    ensures |PdfFiles(listing)| == 0 ==> status == NoPdfFiles && store' == store
    // a file whose processing raises ends the run before anything is saved
    ensures |PdfFiles(listing)| > 0 && CollectChunks(PdfFiles(listing), process).Raised? ==>
      status == Crashed(CollectChunks(PdfFiles(listing), process).error) && store' == store
    // files that yield no chunks at all: nothing is saved
    ensures |PdfFiles(listing)| > 0 && CollectChunks(PdfFiles(listing), process) == Returned([]) ==>
      status == NoText && store' == store
    // otherwise exactly one save, of every chunk of every file in order
    ensures status == Saved <==>
      |PdfFiles(listing)| > 0 && CollectChunks(PdfFiles(listing), process).Returned?
      && |CollectChunks(PdfFiles(listing), process).value| > 0
    ensures status == Saved ==>
      var all := CollectChunks(PdfFiles(listing), process).value;
      && VectorStore.CreateAndSaveIndex(store, all, FaissStorePath, embed) == Returned(store')
      && VectorStore.LoadIndex(store', FaissStorePath) == Returned((VectorStore.BuildIndex(all, embed).value, all))
  {
    var pdfFiles := PdfFiles(listing);
    if |pdfFiles| == 0 {
      return NoPdfFiles, store;
    }
    var collected := CollectAll(pdfFiles, process);
    match collected
    case Raised(e) =>
      return Crashed(e), store;
    case Returned(allChunks) =>
      if |allChunks| == 0 {
        return NoText, store;
      }
      var saved := VectorStore.CreateAndSaveIndex(store, allChunks, FaissStorePath, embed);
      VectorStore.LoadAfterSave(store, allChunks, FaissStorePath, embed);
      return Saved, saved.value;
  }

  /** What the builder saves is what the service loads at startup: both
      globals are set, to the index over the saved chunks and to exactly
      that chunk list. */
  lemma SavedKnowledgeIsLoadedAtStartup(store: VectorStore.FileStore, all: seq<string>,
                                        embed: string -> VectorStore.Vector)
    requires |all| > 0
    ensures App.LoadBaseKnowledge(VectorStore.CreateAndSaveIndex(store, all, FaissStorePath, embed).value)
         == App.BaseKnowledge(Some(VectorStore.BuildIndex(all, embed).value), Some(all))
  {
    assert FaissStorePath == App.BaseKnowledgeStorePath;
    VectorStore.LoadAfterSave(store, all, FaissStorePath, embed);
  }

  /** A request without a document, served after a successful build, is
      answered against the built index and the full accumulated chunk
      list. */
  lemma BaseRequestUsesBuiltKnowledge(store: VectorStore.FileStore, all: seq<string>,
                                      embed: string -> VectorStore.Vector, req: App.Request,
                                      process: App.ProcessOracle, build: App.BuildOracle)
    requires |all| > 0 && req.documents.None?
    ensures var base := App.LoadBaseKnowledge(VectorStore.CreateAndSaveIndex(store, all, FaissStorePath, embed).value);
      App.ResolveIndex(req, base, process, build, App.RewrapAsWritten)
      == Returned(App.Bound(VectorStore.BuildIndex(all, embed).value, all))
  {
    SavedKnowledgeIsLoadedAtStartup(store, all, embed);
  }
}

=== FILE: config.dfy ===
/** The service's settings object, seen only through attribute lookup:
    a name either resolves to a string or raises `AttributeError`. */
module Config {
  import opened Python

  const DefaultLlmModel := "gemini-1.5-flash"

  /** The settings as attribute name to value. */
  datatype Settings = Settings(attributes: map<string, string>) {
    /** `settings.NAME`: the value, or `None` where Python raises
        `AttributeError`. */
    function Attr(name: string): (r: Option<string>)
      ensures r.Some? <==> name in attributes
      ensures r.Some? ==> r.value == attributes[name]
    {
      if name in attributes then Some(attributes[name]) else None
    }
  }

  /** The settings class as declared: its fields are a bearer token, a
      Google API key and a model name with a default. No other field is
      declared; pydantic's own `model_*` attributes are not modelled. */
  function DeclaredSettings(bearerToken: string, googleApiKey: string, llmModel: Option<string>): (s: Settings)
    ensures s.attributes.Keys == {"BEARER_TOKEN", "GOOGLE_API_KEY", "LLM_MODEL"}
    ensures s.Attr("LLM_MODEL") == Some(if llmModel.Some? then llmModel.value else DefaultLlmModel)
  {
    Settings(map[
      "BEARER_TOKEN" := bearerToken,
      "GOOGLE_API_KEY" := googleApiKey,
      "LLM_MODEL" := if llmModel.Some? then llmModel.value else DefaultLlmModel])
  }

  /** The settings the answer service evidently expects: the declared ones
      plus the OpenRouter key it authenticates with. */
  function IntendedSettings(bearerToken: string, googleApiKey: string, openRouterApiKey: string,
                            llmModel: Option<string>): (s: Settings)
    ensures s.attributes.Keys == {"BEARER_TOKEN", "GOOGLE_API_KEY", "OPENROUTER_API_KEY", "LLM_MODEL"}
    ensures s.Attr("OPENROUTER_API_KEY") == Some(openRouterApiKey)
    ensures s.Attr("LLM_MODEL") == Some(if llmModel.Some? then llmModel.value else DefaultLlmModel)
  {
    Settings(map[
      "BEARER_TOKEN" := bearerToken,
      "GOOGLE_API_KEY" := googleApiKey,
      "OPENROUTER_API_KEY" := openRouterApiKey,
      "LLM_MODEL" := if llmModel.Some? then llmModel.value else DefaultLlmModel])
  }
}

=== FILE: llm_service.dfy ===
/** The answer-generation call: it joins the retrieved chunks into one
    context string, posts a chat-completion request and turns the reply,
    or any failure, into a single line of text. It never raises. */
module LlmService {
  import opened Python
  import Config

  const ContextSeparator := "\n---\n"
  const CompletionsUrl := "https://openrouter.ai/api/v1/chat/completions"
  const HttpErrorAnswer := "Error: Could not get a response from the language model."
  const UnexpectedErrorAnswer := "Error: An unexpected error occurred while processing the request."

  /** The two values the prompt template interpolates; the instruction prose
      around them is fixed. */
  datatype Prompt = Prompt(context: string, question: string)

  datatype ChatRequest = ChatRequest(url: string, authorization: string, model: string, prompt: Prompt)

  /** What the remote call ends in. `Ok` carries the message content of the
      first choice; a response of the wrong shape is an `OtherErr`. */
  datatype Reply = Ok(content: string) | HttpStatusErr(statusCode: int) | OtherErr

  /** The context snippets, in retrieval order, separated by a rule line. */
  function ContextString(chunks: seq<string>): (r: string)
    ensures |chunks| == 0 ==> r == ""
    ensures |chunks| > 0 ==> |r| == TotalLength(chunks) + (|chunks| - 1) * |ContextSeparator|
    ensures |chunks| > 0 ==> chunks[0] <= r && EndsWith(r, chunks[|chunks| - 1])
  {
    Join(ContextSeparator, chunks)
  }

  /** Exactly one rule separator sits between any two adjacent chunks. */
  lemma ContextStringConcat(xs: seq<string>, ys: seq<string>)
    requires |xs| > 0 && |ys| > 0
    ensures ContextString(xs + ys) == ContextString(xs) + ContextSeparator + ContextString(ys)
  {
    JoinConcat(ContextSeparator, xs, ys);
  }

  /** The request that is posted, or `None` when reading a setting it needs
      raises `AttributeError` (the authorization header is read first). */
  function RequestFor(question: string, context: seq<string>, settings: Config.Settings): (r: Option<ChatRequest>)
    ensures r.Some? <==> settings.Attr("OPENROUTER_API_KEY").Some? && settings.Attr("LLM_MODEL").Some?
    ensures r.Some? ==> r.value.url == CompletionsUrl && r.value.model == settings.Attr("LLM_MODEL").value
    ensures r.Some? ==> r.value.prompt == Prompt(ContextString(context), question)
    ensures r.Some? ==> r.value.authorization == "Bearer " + settings.Attr("OPENROUTER_API_KEY").value
  {
    var prompt := Prompt(ContextString(context), question);
    match settings.Attr("OPENROUTER_API_KEY")
    case None => None
    case Some(key) =>
      match settings.Attr("LLM_MODEL")
      case None => None
      case Some(model) => Some(ChatRequest(CompletionsUrl, "Bearer " + key, model, prompt))
  }

  /** `content.strip().replace('\n', ' ')`. */
  function CleanReply(content: string): (r: string)
    ensures '\n' !in r
    ensures Trimmed(r)
  {
    var m := Strip(content);
    var r := ReplaceChar(m, '\n', ' ');
    assert IsSpace('\n');
    assert |m| > 0 ==> m[0] != '\n' && m[|m| - 1] != '\n';
    assert |r| > 0 ==> r[0] == m[0] && r[|r| - 1] == m[|m| - 1];
    r
  }

  /** A reply is already clean exactly when it has no newline and no outer
      whitespace; so cleaning twice is cleaning once. */
  lemma CleanReplyFixedPoints(content: string)
    ensures CleanReply(content) == content <==> '\n' !in content && Trimmed(content)
  {
    if '\n' !in content && Trimmed(content) {
      StripTrimmed(content);
      ReplaceAbsent(content, '\n', ' ');
    }
  }

  lemma CleanReplyIdempotent(content: string)
    ensures CleanReply(CleanReply(content)) == CleanReply(content)
  {
    CleanReplyFixedPoints(CleanReply(content));
  }

  /** The answer for one question. Every failure inside the call is mapped
      to one of two fixed sentinels, so the function never raises. */
  function GetAnswerFromLlm(question: string, context: seq<string>, settings: Config.Settings,
                            post: ChatRequest -> Reply): (r: string)
    ensures r == HttpErrorAnswer || r == UnexpectedErrorAnswer || ('\n' !in r && Trimmed(r))
    ensures RequestFor(question, context, settings).None? ==> r == UnexpectedErrorAnswer
    ensures RequestFor(question, context, settings).Some? ==>
      var reply := post(RequestFor(question, context, settings).value);
      && (reply.HttpStatusErr? ==> r == HttpErrorAnswer)
      && (reply.OtherErr? ==> r == UnexpectedErrorAnswer)
      && (reply.Ok? ==> r == CleanReply(reply.content))
  {
    match RequestFor(question, context, settings)
    case None => UnexpectedErrorAnswer
    case Some(request) =>
      match post(request)
      case Ok(content) => CleanReply(content)
      case HttpStatusErr(_) => HttpErrorAnswer
      case OtherErr => UnexpectedErrorAnswer
  }

  /** With the settings class as declared there is no OpenRouter key, so
      every question gets the generic error sentinel and no request is
      ever posted, whatever the remote side would have said. */
  lemma DeclaredSettingsNeverReachModel(question: string, context: seq<string>,
                                        bearerToken: string, googleApiKey: string, llmModel: Option<string>,
                                        post: ChatRequest -> Reply)
    ensures RequestFor(question, context, Config.DeclaredSettings(bearerToken, googleApiKey, llmModel)).None?
    ensures GetAnswerFromLlm(question, context, Config.DeclaredSettings(bearerToken, googleApiKey, llmModel), post)
            == UnexpectedErrorAnswer
  {
    var s := Config.DeclaredSettings(bearerToken, googleApiKey, llmModel);
    assert "OPENROUTER_API_KEY" != "BEARER_TOKEN" && "OPENROUTER_API_KEY" != "GOOGLE_API_KEY"
        && "OPENROUTER_API_KEY" != "LLM_MODEL";
    assert "OPENROUTER_API_KEY" !in s.attributes;
  }

  /** With the key present, a successful reply reaches the caller cleaned,
      and the request carries the key and the joined context. */
  lemma IntendedSettingsReachModel(question: string, context: seq<string>,
                                   bearerToken: string, googleApiKey: string, key: string, llmModel: Option<string>,
                                   post: ChatRequest -> Reply)
    ensures var req := RequestFor(question, context, Config.IntendedSettings(bearerToken, googleApiKey, key, llmModel));
      && req.Some?
      && req.value.authorization == "Bearer " + key
      && req.value.prompt.context == ContextString(context)
      && (post(req.value).Ok? ==>
            GetAnswerFromLlm(question, context, Config.IntendedSettings(bearerToken, googleApiKey, key, llmModel), post)
            == CleanReply(post(req.value).content))
  {
  }
}

=== FILE: python.dfy ===
/** The few pieces of Python's runtime semantics the service relies on:
    exceptions as values, list subscripting with negative indices, and the
    `str` methods `strip`, `replace`, `join` and `endswith`. */
module Python {

  datatype Option<+T> = None | Some(value: T)

  /** The exceptions the modelled code raises or catches, as far as it
      tells them apart. */
  datatype Exception =
    | HTTPException(statusCode: int)
    | IndexError
    | AttributeError
    | OtherError  // any other exception raised inside a library call

  /** What a Python call does: return a value or raise an exception. */
  datatype Outcome<+T> = Returned(value: T) | Raised(error: Exception)

  /** `xs[i]` on a list with an `int` subscript: a negative subscript counts
      from the end, anything outside `-len(xs) <= i < len(xs)` raises. */
  function Subscript<T>(xs: seq<T>, i: int): (r: Outcome<T>)
    ensures r.Returned? <==> -|xs| <= i < |xs|
    ensures r.Returned? ==> r.value == xs[if i < 0 then |xs| + i else i]
    ensures r.Raised? ==> r.error == IndexError
  {
    if 0 <= i < |xs| then Returned(xs[i])
    else if -|xs| <= i < 0 then Returned(xs[|xs| + i])
    else Raised(IndexError)
  }

  /** Python's whitespace characters, listed one by one: the ASCII
      whitespace and separator controls and the Unicode space separators,
      line and paragraph separators. */
  const PythonWhitespace: set<char> := {
    ' ', '\t', '\n', '\U{0B}', '\U{0C}', '\r', '\U{1C}', '\U{1D}', '\U{1E}', '\U{1F}',
    '\U{85}', '\U{A0}', '\U{1680}',
    '\U{2000}', '\U{2001}', '\U{2002}', '\U{2003}', '\U{2004}', '\U{2005}',
    '\U{2006}', '\U{2007}', '\U{2008}', '\U{2009}', '\U{200A}',
    '\U{2028}', '\U{2029}', '\U{202F}', '\U{205F}', '\U{3000}'}

  /** The characters for which `str.isspace()` holds. */
  predicate IsSpace(c: char) {
    || c == ' '
    || '\t' <= c <= '\r'           // \t \n \v \f \r
    || '\U{1C}' <= c <= '\U{1F}'   // file, group, record and unit separators
    || c == '\U{85}' || c == '\U{A0}' || c == '\U{1680}'
    || '\U{2000}' <= c <= '\U{200A}'
    || c == '\U{2028}' || c == '\U{2029}' || c == '\U{202F}'
    || c == '\U{205F}' || c == '\U{3000}'
  }

  /** The range tests above pick out exactly the listed characters. */
  lemma IsSpaceTable(c: char)
    ensures IsSpace(c) <==> c in PythonWhitespace
  {
  }

  predicate AllSpace(s: string) {
    forall k :: 0 <= k < |s| ==> IsSpace(s[k])
  }

  /** Neither end of `s` is whitespace. */
  predicate Trimmed(s: string) {
    |s| == 0 || (!IsSpace(s[0]) && !IsSpace(s[|s| - 1]))
  }

  /** `s.lstrip()`: the shortest suffix of `s` that drops only whitespace. */
  function LStrip(s: string): (r: string)
    ensures |r| <= |s| && r == s[|s| - |r|..]
    ensures AllSpace(s[..|s| - |r|])
    ensures |r| > 0 ==> !IsSpace(r[0])
  {
    if |s| > 0 && IsSpace(s[0]) then LStrip(s[1..]) else s
  }

  /** `s.rstrip()`: the shortest prefix of `s` that drops only whitespace. */
  function RStrip(s: string): (r: string)
    ensures |r| <= |s| && r == s[..|r|]
    ensures AllSpace(s[|r|..])
    ensures |r| > 0 ==> !IsSpace(r[|r| - 1])
  {
    if |s| > 0 && IsSpace(s[|s| - 1]) then RStrip(s[..|s| - 1]) else s
  }

  /** `s.strip()`. */
  function Strip(s: string): (r: string)
    ensures Trimmed(r)
    ensures |r| <= |s|
  {
    RStrip(LStrip(s))
  }

  lemma {:induction false} LStripUnique(s: string, a: string, t: string)
    requires s == a + t && AllSpace(a)
    requires |t| == 0 || !IsSpace(t[0])
    ensures LStrip(s) == t
  {
    if |a| > 0 {
      assert s[0] == a[0];
      assert s[1..] == a[1..] + t;
      LStripUnique(s[1..], a[1..], t);
    }
  }

  lemma {:induction false} RStripUnique(s: string, t: string, b: string)
    requires s == t + b && AllSpace(b)
    requires |t| == 0 || !IsSpace(t[|t| - 1])
    ensures RStrip(s) == t
  {
    if |b| > 0 {
      assert s[|s| - 1] == b[|b| - 1];
      assert s[..|s| - 1] == t + b[..|b| - 1];
      RStripUnique(s[..|s| - 1], t, b[..|b| - 1]);
    } else {
      assert s == t;
    }
  }

  /** `strip` has exactly one possible answer: cut `s` into whitespace,
      a trimmed middle and whitespace, and the middle is `s.strip()`. */
  lemma StripUnique(a: string, m: string, b: string)
    requires AllSpace(a) && AllSpace(b) && Trimmed(m)
    ensures Strip(a + m + b) == m
  {
    var s := a + m + b;
    if |m| == 0 {
      assert s == (a + b) + [];
      assert AllSpace(a + b) by {
        forall k | 0 <= k < |a + b| ensures IsSpace((a + b)[k]) {
          if k < |a| { assert (a + b)[k] == a[k]; } else { assert (a + b)[k] == b[k - |a|]; }
        }
      }
      LStripUnique(s, a + b, []);
      RStripUnique([], [], []);
    } else {
      assert s == a + (m + b);
      LStripUnique(s, a, m + b);
      RStripUnique(m + b, m, b);
    }
  }

  /** Stripping a string that is already trimmed changes nothing. */
  lemma StripTrimmed(s: string)
    requires Trimmed(s)
    ensures Strip(s) == s
  {
    assert [] + s + [] == s;
    StripUnique([], s, []);
  }

  /** `s.replace(target, replacement)` for a one-character `target`. */
  function ReplaceChar(s: string, target: char, replacement: char): (r: string)
    ensures |r| == |s|
    ensures forall k :: 0 <= k < |s| ==> r[k] == (if s[k] == target then replacement else s[k])
  {
    if |s| == 0 then []
    else [if s[0] == target then replacement else s[0]] + ReplaceChar(s[1..], target, replacement)
  }

  /** Replacing a character that does not occur is the identity. */
  lemma ReplaceAbsent(s: string, target: char, replacement: char)
    requires target !in s
    ensures ReplaceChar(s, target, replacement) == s
  {
    var r := ReplaceChar(s, target, replacement);
    assert forall k :: 0 <= k < |s| ==> r[k] == s[k];
  }

  /** `sep.join(xs)`. */
  function Join(sep: string, xs: seq<string>): (r: string)
    ensures |xs| == 0 ==> r == []
    ensures |xs| == 1 ==> r == xs[0]
    ensures |xs| > 0 ==> |r| == TotalLength(xs) + (|xs| - 1) * |sep|
    ensures |xs| > 0 ==> xs[0] <= r
    ensures |xs| > 0 ==> EndsWith(r, xs[|xs| - 1])
  {
    if |xs| == 0 then ""
    else if |xs| == 1 then xs[0]
    else
      var rest := Join(sep, xs[1..]);
      var r := xs[0] + sep + rest;
      assert xs[1..][|xs| - 2] == xs[|xs| - 1];
      assert r[|r| - |rest|..] == rest;
      r
  }

  /** Sum of the lengths of the strings in `xs`. */
  function TotalLength(xs: seq<string>): nat {
    if |xs| == 0 then 0 else |xs[0]| + TotalLength(xs[1..])
  }

  /** Joining two non-empty lists puts one separator between their joins:
      `join` keeps the order of its items and nothing else intervenes. */
  lemma {:induction false} JoinConcat(sep: string, xs: seq<string>, ys: seq<string>)
    requires |xs| > 0 && |ys| > 0
    ensures Join(sep, xs + ys) == Join(sep, xs) + sep + Join(sep, ys)
  {
    if |xs| == 1 {
      assert (xs + ys)[1..] == ys;
    } else {
      assert (xs + ys)[1..] == xs[1..] + ys;
      JoinConcat(sep, xs[1..], ys);
    }
  }

  /** `s.endswith(suffix)`. */
  predicate EndsWith(s: string, suffix: string) {
    |suffix| <= |s| && s[|s| - |suffix|..] == suffix
  }

  /** `s` ends with `suffix` exactly when its last `|suffix|` characters are
      those of `suffix`, position by position; `s` is then some text
      followed by `suffix`. */
  lemma EndsWithPointwise(s: string, suffix: string)
    ensures EndsWith(s, suffix) <==>
      |suffix| <= |s| && forall i :: 0 <= i < |suffix| ==> s[|s| - |suffix| + i] == suffix[i]
    ensures EndsWith(s, suffix) ==> s == s[..|s| - |suffix|] + suffix
  {
  }
}

=== FILE: vector_store.dfy ===
/** The vector store: building a flat L2 index over chunk embeddings,
    saving and loading it beside its chunk list, and mapping the ids a
    search returns back to chunk texts. The embedding model and FAISS's
    nearest-neighbour ranking are oracles passed in as functions. */
module VectorStore {
  import opened Python

  /** An embedding, as produced by the sentence encoder. */
  type Vector = seq<real>

  /** A flat L2 index: one vector per added text, in insertion order;
      FAISS ids are positions in `vectors`. */
  datatype Index = FlatL2(dimension: nat, vectors: seq<Vector>)

  /** The two file kinds the store writes: a serialised index and a
      pickled chunk list. */
  datatype File = FaissFile(index: Index) | PickleFile(chunks: seq<string>)

  /** The file system, as path to file. */
  type FileStore = map<string, File>

  /** `index.search(q, k)` for one query: exactly `k` ids, best first.
      FAISS pads with -1 when fewer than `k` vectors exist. */
  type FaissSearch = f: (Index, Vector, nat) -> seq<int> | forall index, v, k :: |f(index, v, k)| == k
    witness (index: Index, v: Vector, k: nat) => seq(k, _ => -1)

  /** `f"{path_prefix}.faiss"`. */
  function FaissPath(prefix: string): (r: string)
    ensures |r| == |prefix| + 6 && r[..|prefix|] == prefix && EndsWith(r, ".faiss")
  {
    prefix + ".faiss"
  }

  /** `f"{path_prefix}.pkl"`. */
  function PicklePath(prefix: string): (r: string)
    ensures |r| == |prefix| + 4 && r[..|prefix|] == prefix && EndsWith(r, ".pkl")
  {
    prefix + ".pkl"
  }

  /** Encode every chunk and add the vectors to a fresh `IndexFlatL2` whose
      dimension is the embedding width. An empty batch encodes to an array
      without a second dimension, so building over no chunks raises. */
  function BuildIndex(chunks: seq<string>, embed: string -> Vector): (r: Outcome<Index>)
    ensures r.Returned? <==> |chunks| > 0
    ensures r.Returned? ==> |r.value.vectors| == |chunks|
    ensures r.Returned? ==> forall i :: 0 <= i < |chunks| ==> r.value.vectors[i] == embed(chunks[i])
  {
    if |chunks| == 0 then Raised(IndexError)
    else Returned(FlatL2(|embed(chunks[0])|, seq(|chunks|, i requires 0 <= i < |chunks| => embed(chunks[i]))))
  }

  /** An in-memory index, returned together with the very chunk list it
      was built from. */
  function CreateIndexFromChunks(chunks: seq<string>, embed: string -> Vector): (r: Outcome<(Index, seq<string>)>)
    ensures r.Returned? <==> |chunks| > 0
    ensures r.Returned? ==> r.value.1 == chunks && |r.value.0.vectors| == |chunks|
  {
    match BuildIndex(chunks, embed)
    case Raised(e) => Raised(e)
    case Returned(index) => Returned((index, chunks))
  }

  /** Build an index and write it to `prefix.faiss`, then pickle the chunk
      list to `prefix.pkl`; both files are overwritten if present. */
  function CreateAndSaveIndex(store: FileStore, chunks: seq<string>, prefix: string,
                              embed: string -> Vector): (r: Outcome<FileStore>)
    ensures r.Returned? <==> |chunks| > 0
    ensures r.Returned? ==> r.value.Keys == store.Keys + {FaissPath(prefix), PicklePath(prefix)}
    ensures r.Returned? ==>
      forall p :: p in store && p != FaissPath(prefix) && p != PicklePath(prefix) ==> r.value[p] == store[p]
  {
    match BuildIndex(chunks, embed)
    case Raised(e) => Raised(e)
    case Returned(index) =>
      Returned(store[FaissPath(prefix) := FaissFile(index)][PicklePath(prefix) := PickleFile(chunks)])
  }

  /** Read `prefix.faiss` and unpickle `prefix.pkl`. A missing file, or a
      file of the other kind, raises. */
  function LoadIndex(store: FileStore, prefix: string): (r: Outcome<(Index, seq<string>)>)
    ensures r.Returned? <==>
      && FaissPath(prefix) in store && store[FaissPath(prefix)].FaissFile?
      && PicklePath(prefix) in store && store[PicklePath(prefix)].PickleFile?
    ensures r.Returned? ==> r.value == (store[FaissPath(prefix)].index, store[PicklePath(prefix)].chunks)
  {
    if FaissPath(prefix) !in store || !store[FaissPath(prefix)].FaissFile? then Raised(OtherError)
    else if PicklePath(prefix) !in store || !store[PicklePath(prefix)].PickleFile? then Raised(OtherError)
    else Returned((store[FaissPath(prefix)].index, store[PicklePath(prefix)].chunks))
  }

  /** Loading a prefix just saved gives back the index built from the
      chunks and exactly the saved chunk list. */
  lemma LoadAfterSave(store: FileStore, chunks: seq<string>, prefix: string, embed: string -> Vector)
    requires |chunks| > 0
    ensures LoadIndex(CreateAndSaveIndex(store, chunks, prefix, embed).value, prefix)
         == Returned((BuildIndex(chunks, embed).value, chunks))
  {
    assert FaissPath(prefix) != PicklePath(prefix) by {
      assert FaissPath(prefix)[|FaissPath(prefix)| - 1] == 's';
      assert PicklePath(prefix)[|PicklePath(prefix)| - 1] == 'l';
    }
  }

  /** The two file names of distinct prefixes never collide. */
  lemma PathsDistinct(p: string, q: string)
    requires p != q
    ensures FaissPath(p) != FaissPath(q) && PicklePath(p) != PicklePath(q)
    ensures FaissPath(p) != PicklePath(q) && PicklePath(p) != FaissPath(q)
  {
    // the names end in different letters, and equal names of one kind have equal stems
    assert FaissPath(p)[|FaissPath(p)| - 1] == 's' && PicklePath(p)[|PicklePath(p)| - 1] == 'l';
    assert FaissPath(q)[|FaissPath(q)| - 1] == 's' && PicklePath(q)[|PicklePath(q)| - 1] == 'l';
    assert FaissPath(p)[..|p|] == p && FaissPath(q)[..|q|] == q;
    assert PicklePath(p)[..|p|] == p && PicklePath(q)[..|q|] == q;
  }

  /** Saving under one prefix leaves what every other prefix loads as it
      was. */
  lemma SaveKeepsOtherPrefixes(store: FileStore, chunks: seq<string>, p: string, q: string,
                               embed: string -> Vector)
    requires |chunks| > 0 && p != q
    ensures LoadIndex(CreateAndSaveIndex(store, chunks, p, embed).value, q) == LoadIndex(store, q)
  {
    PathsDistinct(p, q);
  }

  /** The ids that pass the filter `i < len(chunks)`, in their order. */
  function Survivors(ids: seq<int>, n: int): (r: seq<int>)
    ensures |r| <= |ids|
    ensures forall x :: x in r <==> x in ids && x < n
  {
    if |ids| == 0 then []
    else (if ids[0] < n then [ids[0]] else []) + Survivors(ids[1..], n)
  }

  lemma {:induction false} SurvivorsConcat(a: seq<int>, b: seq<int>, n: int)
    ensures Survivors(a + b, n) == Survivors(a, n) + Survivors(b, n)
  {
    if |a| > 0 {
      assert (a + b)[1..] == a[1..] + b;
      SurvivorsConcat(a[1..], b, n);
    } else {
      assert a + b == b;
    }
  }

  /** No id is below `lo`. */
  predicate AllAtLeast(ids: seq<int>, lo: int) {
    forall t :: 0 <= t < |ids| ==> lo <= ids[t]
  }

  /** `[chunks[i] for i in ids if i < len(chunks)]` with Python's
      subscripting: a negative id passes the filter and counts from the
      end of the list, and one below `-len(chunks)` raises `IndexError`. */
  function HitsToChunks(chunks: seq<string>, ids: seq<int>): (r: Outcome<seq<string>>)
    ensures r.Returned? <==> AllAtLeast(ids, -|chunks|)
    ensures r.Raised? ==> r.error == IndexError
    ensures r.Returned? ==> |r.value| == |Survivors(ids, |chunks|)|
    ensures r.Returned? ==> forall j :: 0 <= j < |r.value| ==>
      Subscript(chunks, Survivors(ids, |chunks|)[j]) == Returned(r.value[j])
  {
    if |ids| == 0 then Returned([])
    else
      var rest := HitsToChunks(chunks, ids[1..]);
      assert forall j :: 1 <= j < |ids| ==> ids[j] == ids[1..][j - 1];
      if ids[0] < |chunks| then
        match Subscript(chunks, ids[0])
        case Raised(e) => Raised(e)
        case Returned(c) =>
          match rest
          case Raised(e) => Raised(e)
          case Returned(tail) => Returned([c] + tail)
      else rest
  }

  /** `search_faiss_index`: encode the query, ask the index for `k` ids and
      map them to chunks. */
  function SearchIndex(index: Index, chunks: seq<string>, query: string, k: nat,
                       embed: string -> Vector, search: FaissSearch): (r: Outcome<seq<string>>)
    ensures r.Returned? ==> |r.value| <= k
    ensures r.Returned? ==> forall j :: 0 <= j < |r.value| ==> r.value[j] in chunks
  {
    HitsToChunks(chunks, search(index, embed(query), k))
  }

  /** Every hit that survives the filter lands at the position given by the
      number of survivors before it, and maps to `chunks[i]` for `i >= 0`
      and to `chunks[len + i]` for negative `i`. */
  lemma HitMapsToChunk(chunks: seq<string>, ids: seq<int>, j: int)
    requires HitsToChunks(chunks, ids).Returned?
    requires 0 <= j < |ids| && ids[j] < |chunks|
    ensures |Survivors(ids[..j], |chunks|)| < |HitsToChunks(chunks, ids).value|
    ensures HitsToChunks(chunks, ids).value[|Survivors(ids[..j], |chunks|)|]
         == (if ids[j] >= 0 then chunks[ids[j]] else chunks[|chunks| + ids[j]])
  {
    var n := |chunks|;
    assert ids == ids[..j] + ([ids[j]] + ids[j + 1..]);
    SurvivorsConcat(ids[..j], [ids[j]] + ids[j + 1..], n);
    SurvivorsConcat([ids[j]], ids[j + 1..], n);
    var pos := |Survivors(ids[..j], n)|;
    assert Survivors(ids, n)[pos] == ids[j];
  }

  /** A FAISS pad id -1 passes the filter and yields the last chunk. */
  lemma PadHitIsLastChunk(chunks: seq<string>, ids: seq<int>, j: int)
    requires |chunks| > 0 && HitsToChunks(chunks, ids).Returned?
    requires 0 <= j < |ids| && ids[j] == -1
    ensures |Survivors(ids[..j], |chunks|)| < |HitsToChunks(chunks, ids).value|
    ensures HitsToChunks(chunks, ids).value[|Survivors(ids[..j], |chunks|)|] == chunks[|chunks| - 1]
  {
    HitMapsToChunk(chunks, ids, j);
  }

  /** Removing one id at or past the end of the list leaves the survivors
      as they were. */
  lemma SurvivorsSkipOutOfRange(ids: seq<int>, j: int, n: int)
    requires 0 <= j < |ids| && ids[j] >= n
    ensures Survivors(ids, n) == Survivors(ids[..j] + ids[j + 1..], n)
  {
    assert ids == ids[..j] + ([ids[j]] + ids[j + 1..]);
    SurvivorsConcat(ids[..j], [ids[j]] + ids[j + 1..], n);
    SurvivorsConcat([ids[j]], ids[j + 1..], n);
    SurvivorsConcat(ids[..j], ids[j + 1..], n);
  }

  /** Removing an id that is at least `lo` does not change whether all
      ids are at least `lo`. */
  lemma AllAtLeastWithout(ids: seq<int>, j: int, lo: int)
    requires 0 <= j < |ids| && ids[j] >= lo
    ensures AllAtLeast(ids, lo) <==> AllAtLeast(ids[..j] + ids[j + 1..], lo)
  {
    var rest := ids[..j] + ids[j + 1..];
    if AllAtLeast(ids, lo) {
      forall t | 0 <= t < |rest| ensures lo <= rest[t] {
        if t < j { assert rest[t] == ids[t]; } else { assert rest[t] == ids[t + 1]; }
      }
    }
    if AllAtLeast(rest, lo) {
      forall t | 0 <= t < |ids| ensures lo <= ids[t] {
        if t < j { assert ids[t] == rest[t]; } else if t > j { assert ids[t] == rest[t - 1]; }
      }
    }
  }

  /** An id at or past the end of the list is dropped: the result is what
      the ids without it give. */
  lemma OutOfRangeHitDropped(chunks: seq<string>, ids: seq<int>, j: int)
    requires 0 <= j < |ids| && ids[j] >= |chunks|
    ensures HitsToChunks(chunks, ids) == HitsToChunks(chunks, ids[..j] + ids[j + 1..])
  {
    var n := |chunks|;
    var rest := ids[..j] + ids[j + 1..];
    SurvivorsSkipOutOfRange(ids, j, n);
    AllAtLeastWithout(ids, j, -n);
    SameSurvivorsSameHits(chunks, ids, rest);
  }

  /** The result depends only on the surviving ids, once none raises. */
  lemma SameSurvivorsSameHits(chunks: seq<string>, ids: seq<int>, ids': seq<int>)
    requires Survivors(ids, |chunks|) == Survivors(ids', |chunks|)
    requires AllAtLeast(ids, -|chunks|) <==> AllAtLeast(ids', -|chunks|)
    ensures HitsToChunks(chunks, ids) == HitsToChunks(chunks, ids')
  {
    var a := HitsToChunks(chunks, ids);
    var b := HitsToChunks(chunks, ids');
    if a.Returned? {
      var sv := Survivors(ids, |chunks|);
      forall t | 0 <= t < |a.value| ensures a.value[t] == b.value[t] {
        assert Subscript(chunks, sv[t]) == Returned(a.value[t]);
        assert Subscript(chunks, sv[t]) == Returned(b.value[t]);
      }
      assert a.value == b.value;
    }
  }

  /** The ids that name a real position, `0 <= i < n`, in their order. */
  function ValidIds(ids: seq<int>, n: int): (r: seq<int>)
    ensures |r| <= |ids|
    ensures forall t :: 0 <= t < |r| ==> 0 <= r[t] < n
    ensures forall x :: x in r <==> x in ids && 0 <= x < n
  {
    if |ids| == 0 then []
    else (if 0 <= ids[0] < n then [ids[0]] else []) + ValidIds(ids[1..], n)
  }

  /** The evidently intended mapping, which also drops FAISS's -1 pads:
      `[chunks[i] for i in ids if 0 <= i < len(chunks)]`. It never raises. */
  function HitsToChunksIntended(chunks: seq<string>, ids: seq<int>): (r: seq<string>)
    ensures |r| == |ValidIds(ids, |chunks|)|
    ensures forall t :: 0 <= t < |r| ==> r[t] == chunks[ValidIds(ids, |chunks|)[t]]
  {
    if |ids| == 0 then []
    else (if 0 <= ids[0] < |chunks| then [chunks[ids[0]]] else []) + HitsToChunksIntended(chunks, ids[1..])
  }

  /** The search with the corrected filter: at most `k` chunks, only
      those of real hits, and it never raises. */
  function SearchIndexIntended(index: Index, chunks: seq<string>, query: string, k: nat,
                               embed: string -> Vector, search: FaissSearch): (r: seq<string>)
    ensures |r| <= k
    ensures forall j :: 0 <= j < |r| ==> r[j] in chunks
  {
    HitsToChunksIntended(chunks, search(index, embed(query), k))
  }

  /** How many of the ids are negative. */
  function Negatives(ids: seq<int>): (c: nat)
    ensures c <= |ids|
    ensures c == 0 <==> AllAtLeast(ids, 0)
  {
    if |ids| == 0 then 0
    else
      assert forall t :: 1 <= t < |ids| ==> ids[t] == ids[1..][t - 1];
      (if ids[0] < 0 then 1 else 0) + Negatives(ids[1..])
  }

  /** The corrected filter keeps the order of the ids. */
  lemma {:induction false} ValidIdsConcat(a: seq<int>, b: seq<int>, n: int)
    ensures ValidIds(a + b, n) == ValidIds(a, n) + ValidIds(b, n)
  {
    if |a| > 0 {
      assert (a + b)[1..] == a[1..] + b;
      ValidIdsConcat(a[1..], b, n);
    } else {
      assert a + b == b;
    }
  }

  lemma AllAtLeastTail(ids: seq<int>, lo: int)
    requires |ids| > 0
    ensures AllAtLeast(ids, lo) <==> lo <= ids[0] && AllAtLeast(ids[1..], lo)
  {
    assert forall t :: 1 <= t < |ids| ==> ids[t] == ids[1..][t - 1];
  }

  /** Without negative ids the two filters keep the same ids; each
      negative id that passes `i < n` is one more survivor than valid id. */
  lemma {:induction false} ValidIdsVsSurvivors(ids: seq<int>, n: nat)
    ensures AllAtLeast(ids, 0) ==> ValidIds(ids, n) == Survivors(ids, n)
    ensures |Survivors(ids, n)| == |ValidIds(ids, n)| + Negatives(ids)
    ensures |ValidIds(ids, n)| <= |Survivors(ids, n)|
    ensures !AllAtLeast(ids, 0) ==> |ValidIds(ids, n)| < |Survivors(ids, n)|
  {
    if |ids| > 0 {
      AllAtLeastTail(ids, 0);
      ValidIdsVsSurvivors(ids[1..], n);
    }
  }

  /** The written filter and the intended one agree exactly on the id
      lists without negative ids. */
  lemma AgreesIffNoNegativeIds(chunks: seq<string>, ids: seq<int>)
    ensures HitsToChunks(chunks, ids) == Returned(HitsToChunksIntended(chunks, ids)) <==> AllAtLeast(ids, 0)
  {
    var n := |chunks|;
    var a := HitsToChunks(chunks, ids);
    var b := HitsToChunksIntended(chunks, ids);
    ValidIdsVsSurvivors(ids, n);
    if AllAtLeast(ids, 0) {
      assert AllAtLeast(ids, -n);
      var sv := Survivors(ids, n);
      forall t | 0 <= t < |a.value| ensures a.value[t] == b[t] {
        assert Subscript(chunks, sv[t]) == Returned(a.value[t]);
      }
      assert a.value == b;
    } else if a.Returned? {
      assert |a.value| != |b|;
    }
  }

  /** `count` FAISS pad ids. */
  function Pads(count: nat): (r: seq<int>)
    ensures |r| == count && forall t :: 0 <= t < count ==> r[t] == -1
  {
    seq(count, _ => -1)
  }

  lemma {:induction false} SurvivorsAllBelow(ids: seq<int>, n: int)
    requires forall t :: 0 <= t < |ids| ==> ids[t] < n
    ensures Survivors(ids, n) == ids
  {
    if |ids| > 0 {
      SurvivorsAllBelow(ids[1..], n);
    }
  }

  /** What FAISS returns when asked for more hits than the index holds:
      the real hits, then -1 pads. As written, every pad comes back as a
      copy of the last chunk, so the result is as long as the id list. */
  lemma PaddedHitsRepeatLastChunk(chunks: seq<string>, hits: seq<int>, pads: nat)
    requires |chunks| > 0
    requires forall t :: 0 <= t < |hits| ==> 0 <= hits[t] < |chunks|
    ensures HitsToChunks(chunks, hits + Pads(pads)).Returned?
    ensures |HitsToChunks(chunks, hits + Pads(pads)).value| == |hits| + pads
    ensures forall t :: 0 <= t < |hits| ==> HitsToChunks(chunks, hits + Pads(pads)).value[t] == chunks[hits[t]]
    ensures forall t :: |hits| <= t < |hits| + pads ==>
      HitsToChunks(chunks, hits + Pads(pads)).value[t] == chunks[|chunks| - 1]
  {
    var n := |chunks|;
    var ids := hits + Pads(pads);
    assert forall t :: 0 <= t < |ids| ==> -1 <= ids[t] < n;
    assert AllAtLeast(ids, -n);
    SurvivorsAllBelow(ids, n);
    var r := HitsToChunks(chunks, ids);
    forall t | 0 <= t < |hits| ensures r.value[t] == chunks[hits[t]] {
      assert ids[t] == hits[t];
      assert Subscript(chunks, ids[t]) == Returned(r.value[t]);
    }
    forall t | |hits| <= t < |hits| + pads ensures r.value[t] == chunks[n - 1] {
      assert ids[t] == -1;
      assert Subscript(chunks, ids[t]) == Returned(r.value[t]);
    }
  }

  /** The intended filter returns just the real hits: with FAISS reporting
      all `n` vectors when `k >= n`, exactly `n` chunks. */
  lemma PaddedHitsIntended(chunks: seq<string>, hits: seq<int>, pads: nat)
    requires forall t :: 0 <= t < |hits| ==> 0 <= hits[t] < |chunks|
    ensures HitsToChunksIntended(chunks, hits + Pads(pads)) == seq(|hits|, t requires 0 <= t < |hits| => chunks[hits[t]])
  {
    var n := |chunks|;
    ValidIdsOfPadded(hits, pads, n);
  }

  lemma {:induction false} ValidIdsOfPadded(hits: seq<int>, pads: nat, n: int)
    requires forall t :: 0 <= t < |hits| ==> 0 <= hits[t] < n
    ensures ValidIds(hits + Pads(pads), n) == hits
  {
    if |hits| == 0 {
      NoValidPads(pads, n);
      assert hits + Pads(pads) == Pads(pads);
    } else {
      assert (hits + Pads(pads))[1..] == hits[1..] + Pads(pads);
      ValidIdsOfPadded(hits[1..], pads, n);
    }
  }

  lemma {:induction false} NoValidPads(pads: nat, n: int)
    ensures ValidIds(Pads(pads), n) == []
  {
    if pads > 0 {
      assert Pads(pads)[1..] == Pads(pads - 1);
      NoValidPads(pads - 1, n);
    }
  }

  /** A three-chunk document searched with `k = 7`: FAISS returns three
      real ids and four pads, and the written filter hands back seven
      chunks, the last one five times. */
  lemma ShortDocumentSearchExample(chunks: seq<string>, ids: seq<int>)
    requires |chunks| == 3 && ids == [2, 0, 1] + Pads(4)
    ensures HitsToChunks(chunks, ids)
         == Returned([chunks[2], chunks[0], chunks[1], chunks[2], chunks[2], chunks[2], chunks[2]])
    ensures HitsToChunksIntended(chunks, ids) == [chunks[2], chunks[0], chunks[1]]
  {
    var hits := [2, 0, 1];
    PaddedHitsRepeatLastChunk(chunks, hits, 4);
    var v := HitsToChunks(chunks, ids).value;
    var expected := [chunks[2], chunks[0], chunks[1], chunks[2], chunks[2], chunks[2], chunks[2]];
    forall t | 0 <= t < 7 ensures v[t] == expected[t] {
      if t < 3 {
        assert v[t] == chunks[hits[t]];
      }
    }
    assert v == expected;
    PaddedHitsIntended(chunks, hits, 4);
    var w := HitsToChunksIntended(chunks, ids);
    assert w[0] == chunks[2] && w[1] == chunks[0] && w[2] == chunks[1];
  }
}
